=== FILE: README.md ===
# Speed violation system — decision pipeline model

A Dafny model of the per-frame decision pipeline of `SpeedViolationSystem`
(`speed_violation_system.py`). For every video frame the system

1. ranks the traced contours by enclosed area, largest first, keeps the ten
   largest, and takes the first whose polygon approximation has exactly four
   vertices as the licence-plate outline (`detect_license_plate`);
2. runs OCR on the grey-scale crop of that outline and strips surrounding
   whitespace (`read_license_plate`);
3. for a non-empty reading, draws a simulated speed in
   `[limit - 20, limit + 30)` and, when it exceeds the limit, appends a
   `Date, Time, License Plate, Speed (km/h), Location` row to the violation
   workbook (`record_violation`), which `initialize_excel` creates with its
   header row only when the file is absent;
4. stops at the first failed frame read or after a frame on which the `q` key
   was pressed (`process_video`).

Modules, one per component:

- `Wrappers` (`wrappers.dfy`): `Option` and `Result`.
- `Localizer` (`localizer.dfy`): contours as records (area, approximated
  vertex count, bounding box), the stable descending ranking, the top-ten cut,
  first-quadrilateral selection, and the detected crop.
- `Reader` (`reader.dfy`): Python's `str.isspace` as a character predicate,
  `str.strip()` on `seq<char>`, and the read with the OCR engine as a
  function parameter.
- `ViolationLog` (`violation_log.dfy`): cells, rows, the header, the workbook
  as `Option<seq<Row>>` (absent file = `None`), initialisation and recording.
- `Orchestrator` (`orchestrator.dfy`): the per-frame decision, one loop
  iteration, and the loop as a fold over a sequence of frame reads.

External inputs become parameters: the OCR engine is a function
`Crop -> string`; each frame carries its traced contours, the speed drawn for
it, the formatted clock reading used if it is recorded, and the key code the
key poll returns after it is displayed.

Three consequences of the code that the model keeps:

- `np.random.randint` excludes its upper bound, so the simulated speed lies
  in `[limit - 20, limit + 30)`.
- Nothing in `process_video` catches an exception, so one raised while
  processing a frame ends the run. The model keeps the one the workbook
  logic itself raises, `record_violation` on a missing file
  (`Outcome.Aborted`); the OCR call and the save are assumed to succeed
  (see "Left out").
- An all-whitespace OCR result reads as `""`, which the loop's truthiness
  test skips just as it would skip `None`.

## Model

| member | source | states |
|---|---|---|
| Localizer.RankByArea | speed_violation_system.py:29 | the ranking is in non-increasing area order and is a permutation of the traced contours (same multiset, same length) |
| Localizer.RankByAreaIsStable | speed_violation_system.py:29 | contours of equal area keep their input order, as Python's stable `sorted` guarantees even with `reverse=True` |
| Localizer.StableRankingUnique | speed_violation_system.py:29 | two descending orderings that agree on the order within every area are identical |
| Localizer.RankByAreaIsTheStableSort | speed_violation_system.py:29 | every descending ordering that preserves input order within each area equals the computed ranking, so the ranking is exactly the stable descending sort |
| Localizer.TopCandidates | speed_violation_system.py:29 | the cut keeps `min(10, n)` contours and is a prefix of the ranking |
| Localizer.FirstQuad | speed_violation_system.py:31-37 | the scan yields the index of a four-vertex contour with no four-vertex contour before it, and yields nothing exactly when no contour has four vertices |
| Localizer.SelectPlateContour | speed_violation_system.py:28-38 | an outline is chosen iff one of the first `min(10, n)` ranked contours has four vertices; the chosen one is such a contour with no four-vertex contour ranked before it, so a quadrilateral ranked 11th or lower is never chosen |
| Localizer.Detect | speed_violation_system.py:39-43 | a region is returned iff an outline was selected; the region is the selected outline's bounding box and the crop is that box of the same frame |
| Localizer.LargerContoursAreNotQuads | speed_violation_system.py:29-37 | every traced contour with strictly larger area than the chosen outline has a vertex count other than four |
| Localizer.TieBrokenByInputOrder | speed_violation_system.py:29-37 | among the traced contours whose area equals the chosen outline's, in tracing order, the chosen outline is the first quadrilateral |
| Reader.TrimStart | speed_violation_system.py:48 | the result is a suffix of the input, everything removed is whitespace, and it does not start with whitespace |
| Reader.TrimEnd | speed_violation_system.py:48 | the result is a prefix of the input, everything removed is whitespace, and it does not end with whitespace |
| Reader.Strip | speed_violation_system.py:48 | the result is a contiguous slice of the text, everything outside it is whitespace, and it neither starts nor ends with whitespace |
| Reader.StripUnique | speed_violation_system.py:48 | the slice so described is unique: whitespace stripping has exactly one outcome |
| Reader.StripIdempotent | speed_violation_system.py:48 | stripping the stripped text again leaves it unchanged |
| Reader.StripEmptyIffBlank | speed_violation_system.py:48 | the stripped text is empty exactly when the OCR text consists of whitespace only |
| Reader.ReadPlate | speed_violation_system.py:45-49 | the reading is absent iff the crop is absent; otherwise it is the whitespace-stripped OCR text of the crop |
| ViolationLog.Initialize | speed_violation_system.py:15-21 | an absent workbook is created holding exactly the five-column header; an existing workbook is returned unchanged |
| ViolationLog.RepeatedInitializeIsInitialize | speed_violation_system.py:15-21 | running initialisation any positive number of times equals running it once: the header is written once and existing rows are never overwritten |
| ViolationLog.FreshWorkbookHasNoViolations | speed_violation_system.py:16-21 | a newly created workbook holds only the header and reads back no violations |
| ViolationLog.HeaderIsNotAViolation | speed_violation_system.py:19 | the header row does not read back as a violation |
| ViolationLog.Record | speed_violation_system.py:51-62 | with every cell value accepted by the spreadsheet library, recording fails iff the workbook is absent; otherwise exactly one row is appended, all earlier rows (header included) are unchanged, and the new row reads back as the recorded date, time, plate, speed and location |
| ViolationLog.ViolationRowReadsBack | speed_violation_system.py:55-61 | the five-cell row written for a violation reads back as that violation, and distinct violations give distinct rows |
| ViolationLog.ViolationRowsReadBack | speed_violation_system.py:55-61 | reading back the rows written for a sequence of violations gives that sequence |
| ViolationLog.RecordReadsBack | speed_violation_system.py:51-62 | after recording, the workbook reads back its earlier violations followed by exactly the recorded one |
| Orchestrator.Decide | speed_violation_system.py:72-80 | a frame gives a violation iff a plate outline is selected, its OCR text is not all whitespace, and the speed is strictly above the limit; the violation carries the stripped text, the speed, the frame's clock reading and the configured location |
| Orchestrator.Step | speed_violation_system.py:72-80 | a frame without a violation leaves the workbook unchanged; a violation on an existing workbook appends its row; a violation on a missing workbook fails with `MissingWorkbook` |
| Orchestrator.QuitKeyLowByte | speed_violation_system.py:92-93 | the quit test reads only the low byte of the key code: adding multiples of 256 (modifier bits) changes nothing, `q` quits, and neither "no key" (-1) nor `Q` does |
| Orchestrator.Run | speed_violation_system.py:67-93 | with the OCR call and the save succeeding, on an existing workbook the loop always completes and keeps every earlier row as a prefix; on a missing workbook the workbook stays absent; an abort happens only on a missing workbook, with `MissingWorkbook` |
| Orchestrator.RunOnMissingWorkbook | speed_violation_system.py:67-93 | with the OCR call succeeding, without a workbook the loop completes with the workbook still absent when no processed frame qualifies, and aborts with `MissingWorkbook` as soon as one does |
| Orchestrator.Processed | speed_violation_system.py:67-93 | the processed frames are the successfully read frames in order, none but the last asked to quit, and processing stops only at a failed read, after a quit request, or at the end of the feed |
| Orchestrator.RunAppendsViolationsInOrder | speed_violation_system.py:67-93 | with the OCR call and the save succeeding and every cell value accepted by the spreadsheet library, on an existing workbook the loop completes, leaving the earlier rows followed by one row per qualifying processed frame, in frame order |
| Orchestrator.ProcessVideo | speed_violation_system.py:64-96 | with the OCR call and the save succeeding and every cell value accepted by the spreadsheet library, a capture that is not open changes nothing; on an existing workbook the run completes having appended one row per qualifying processed frame; on a missing workbook it aborts with `MissingWorkbook` iff some processed frame qualifies, and otherwise completes, the workbook still absent |
| Orchestrator.Session | speed_violation_system.py:98-101 | with the OCR call and the save succeeding and every cell value accepted by the spreadsheet library, constructing the system and processing a video never aborts; a fresh workbook starts with the header; the violations read back are the earlier ones followed by those of the processed frames |
| Orchestrator.NoViolationsIffNoFrameQualifies | speed_violation_system.py:72-80 | a sequence of frames yields no violation exactly when no single frame qualifies |
| Orchestrator.NoDetectionLeavesLogUnchanged | speed_violation_system.py:72-73 | frames in which no plate outline is found, however many, leave the workbook unchanged |
| Orchestrator.RecordedViolationsAreSound | speed_violation_system.py:75-80 | with speeds drawn from `[limit - 20, limit + 30)`, every recorded speed satisfies `limit < speed <= limit + 29`, and every recorded plate is non-empty, already stripped, and every location the configured one |
| Orchestrator.SelectSecondLargest | speed_violation_system.py:29-37 | with two contours, the smaller one is chosen when it alone is a quadrilateral |
| Orchestrator.StripOfOcrSample | speed_violation_system.py:48 | the OCR text "AB12CD" followed by newline and form feed strips to "AB12CD" |
| Orchestrator.SampleFrameQualifies | speed_violation_system.py:72-80 | a frame whose second-largest contour is the only quadrilateral, read as "AB12CD" plus trailing newline and form feed, at speed 75 against limit 60, gives the violation with plate "AB12CD", speed 75 and the configured location |
| Orchestrator.ScenarioSingleViolation | speed_violation_system.py:67-93 | limit 60, speed 75, plate read "AB12CD" at "Main Street", then a failed read: the run completes with exactly one row holding the frame's date and time, "AB12CD", 75 and "Main Street" appended after the existing rows |

## Left out

- The image pipeline (grey conversion, Gaussian blur, Canny edges, contour
  tracing, contour area, perimeter, polygon approximation at 2% of the
  perimeter, bounding rectangle, the crop slice): foreign floating-point image
  numerics. Each contour arrives with its area, approximated vertex count and
  bounding box; a crop is identified by its frame and box.
- The Tesseract OCR call and its executable path: an external engine, passed
  in as a function from crop to text (its single-word mode is part of it).
- Workbook loading and saving and the file-existence test: file I/O; the file
  is an in-memory optional row sequence, and saving is the identity.
- `datetime.now` and `strftime`: the clock and formatting library; each frame
  carries the formatted date and time strings used if it is recorded.
- `np.random.randint`: randomness; the drawn speed is a frame input, and the
  range `[limit - 20, limit + 30)` is a hypothesis of the lemmas about
  recorded speeds.
- Video capture, `imshow`, `waitKey`, window teardown and the drawing of the
  box and labels: video and UI I/O with no effect on the workbook. The capture
  is a sequence of read outcomes plus an open flag; the key poll is a key code
  per frame.
- External writers to the workbook and deletion of the file during a run:
  outside the program.
- ViolationLog.Record: the spreadsheet library's cell validation is not
  modelled. On `ws.append` it raises for text holding a control character in
  `\x00-\x08`, `\x0b-\x0c` or `\x0e-\x1f` (so an OCR reading with such a
  character inside it, which stripping keeps, aborts the run on an existing
  workbook), and it truncates text longer than 32,767 characters. The model
  stores every value unchanged, so recording fails only on a missing workbook.
- Orchestrator.Session: "never aborts" and the read-back of every recorded
  violation assume the library accepts every cell value unchanged, and that
  neither the OCR call nor the save raises. `pytesseract.image_to_string`
  raises when the Tesseract executable at the configured path is missing or
  exits with an error, and `wb.save` raises when the file cannot be written
  (for instance while another program holds it open); nothing catches these,
  so the run ends. The OCR engine is a total function and saving is the
  identity here.
- Orchestrator.Run: its abort clause covers only the missing workbook; a
  raising OCR call or save, or a rejected cell value, also ends the loop
  and is assumed not to happen.
- Orchestrator.RunOnMissingWorkbook: "completes when no processed frame
  qualifies" assumes the OCR call does not raise; a raising OCR call on a
  frame with a detected outline ends the loop earlier.
- Orchestrator.Step: its success on an existing workbook assumes the library
  accepts every cell value and that neither the OCR call nor the save raises.
- Orchestrator.RunAppendsViolationsInOrder: "the loop completes" on an
  existing workbook assumes the library accepts every cell value and that
  neither the OCR call nor the save raises; a plate with an inner control
  character (such as a form feed between letters) makes `ws.append` raise
  and would end the run there.
- Orchestrator.ProcessVideo: "the run completes" on an existing workbook
  assumes the library accepts every cell value and that neither the OCR call
  nor the save raises; a rejected plate such as one with an inner form feed
  would end the run.
- Every other foreign call is likewise assumed not to raise, among them
  `cv2.imshow` and `cv2.waitKey`, which raise on an OpenCV build without
  window support.

=== FILE: localizer.dfy ===
/** Plate localisation (`detect_license_plate`): the contours found in a frame
    are ranked by enclosed area, largest first, the ranking is cut to the ten
    largest, and the first of those whose polygon approximation has exactly four
    vertices is taken as the plate outline.

    The pixel pipeline (grey conversion, blur, edge detection, contour tracing,
    area, perimeter, polygon approximation, bounding rectangle) is foreign image
    numerics; each contour therefore arrives with those facts already attached. */
module Localizer {
  import opened Wrappers

  /** Axis-aligned bounding rectangle `(x, y, w, h)` in pixel coordinates. */
  datatype Box = Box(x: int, y: int, w: int, h: int)

  /** Identity of one frame's grey-scale pixel grid; the pixels themselves are
      never inspected by the decision logic. */
  datatype Image = Image(id: nat)

  /** The grey-scale pixels of `image` inside `box` (the slice `gray[y:y+h, x:x+w]`). */
  datatype Crop = Crop(image: Image, box: Box)

  /** One traced contour: its enclosed area, the vertex count of its polygon
      approximation at a tolerance of 2% of its perimeter, and the bounding
      rectangle of that approximation. */
  datatype Contour = Contour(area: real, vertices: nat, box: Box)

  /** A detected plate: the cropped pixels and the rectangle they came from. */
  datatype Candidate = Candidate(crop: Crop, box: Box)

  /** Only this many of the largest contours are ever examined. */
  const MaxCandidates: nat := 10

  /** The quadrilateral heuristic: the approximation has exactly four corners. */
  predicate IsQuad(c: Contour) {
    c.vertices == 4
  }

  ghost predicate SortedByAreaDesc(s: seq<Contour>) {
    forall i, j :: 0 <= i < j < |s| ==> s[i].area >= s[j].area
  }

  /** The contours of `s` whose area is exactly `a`, in their order in `s`. */
  function WithArea(s: seq<Contour>, a: real): seq<Contour> {
    if s == [] then []
    else (if s[0].area == a then [s[0]] else []) + WithArea(s[1..], a)
  }

  lemma {:induction false} WithAreaMembers(s: seq<Contour>, a: real, c: Contour)
    ensures c in WithArea(s, a) <==> c in s && c.area == a
  {
    if s != [] {
      WithAreaMembers(s[1..], a, c);
      assert s == [s[0]] + s[1..];
    }
  }

  /** `t` keeps, for every area, the relative order that `s` gives the contours
      of that area: what a stable sort guarantees. */
  ghost predicate SameOrderPerArea(t: seq<Contour>, s: seq<Contour>) {
    forall a :: WithArea(t, a) == WithArea(s, a)
  }

  lemma SortedCons(x: Contour, t: seq<Contour>)
    requires SortedByAreaDesc(t) && (t != [] ==> x.area >= t[0].area)
    ensures SortedByAreaDesc([x] + t)
  {
    var r := [x] + t;
    forall i, j | 0 <= i < j < |r|
      ensures r[i].area >= r[j].area
    {
      if i == 0 {
        assert r[j] == t[j - 1];
        assert t[0].area >= t[j - 1].area;
      } else {
        assert r[i] == t[i - 1] && r[j] == t[j - 1];
      }
    }
  }

  /** Inserts `c` into a descending ranking in front of every contour whose area
      is not larger than its own, so that `c` precedes contours of equal area. */
  function InsertByArea(c: Contour, s: seq<Contour>): (r: seq<Contour>)
    requires SortedByAreaDesc(s)
    ensures SortedByAreaDesc(r)
    ensures multiset(r) == multiset(s) + multiset{c}
    ensures r[0] == c || (s != [] && r[0] == s[0])
  {
    if s == [] || s[0].area <= c.area then
      SortedCons(c, s);
      [c] + s
    else
      var rest := InsertByArea(c, s[1..]);
      assert s == [s[0]] + s[1..];
      SortedCons(s[0], rest);
      [s[0]] + rest
  }

  /** `sorted(contours, key=cv2.contourArea, reverse=True)`: a stable sort by
      area, largest first. */
  function RankByArea(s: seq<Contour>): (r: seq<Contour>)
    ensures SortedByAreaDesc(r)
    ensures multiset(r) == multiset(s)
    ensures |r| == |s|
  {
    if s == [] then []
    else
      var rest := RankByArea(s[1..]);
      assert s == [s[0]] + s[1..];
      InsertByArea(s[0], rest)
  }

  lemma {:induction false} WithAreaCons(c: Contour, s: seq<Contour>, a: real)
    ensures WithArea([c] + s, a) == (if c.area == a then [c] else []) + WithArea(s, a)
  {
    assert ([c] + s)[1..] == s;
  }

  lemma {:induction false} InsertKeepsOrderPerArea(c: Contour, s: seq<Contour>, a: real)
    requires SortedByAreaDesc(s)
    ensures WithArea(InsertByArea(c, s), a) == WithArea([c] + s, a)
  {
    if s == [] || s[0].area <= c.area {
      assert InsertByArea(c, s) == [c] + s;
    } else {
      var t := s[1..];
      var rest := InsertByArea(c, t);
      var h0 := if s[0].area == a then [s[0]] else [];
      var hc := if c.area == a then [c] else [];
      var wt := WithArea(t, a);
      assert s == [s[0]] + t;
      assert InsertByArea(c, s) == [s[0]] + rest;
      InsertKeepsOrderPerArea(c, t, a);
      WithAreaCons(s[0], rest, a);
      WithAreaCons(c, t, a);
      WithAreaCons(c, s, a);
      WithAreaCons(s[0], t, a);
      assert WithArea(InsertByArea(c, s), a) == h0 + (hc + wt);
      assert WithArea([c] + s, a) == hc + (h0 + wt);
      // s[0] is strictly larger than c, so at most one of them has area a
      if s[0].area == a {
        assert hc == [];
        assert h0 + ([] + wt) == [] + (h0 + wt);
      } else {
        assert h0 == [];
        assert [] + (hc + wt) == hc + ([] + wt);
      }
    }
  }

  /** The ranking is stable: contours of equal area keep their input order. */
  lemma {:induction false} RankByAreaIsStable(s: seq<Contour>)
    ensures SameOrderPerArea(RankByArea(s), s)
  {
    if s != [] {
      RankByAreaIsStable(s[1..]);
      forall a
        ensures WithArea(RankByArea(s), a) == WithArea(s, a)
      {
        InsertKeepsOrderPerArea(s[0], RankByArea(s[1..]), a);
        WithAreaCons(s[0], RankByArea(s[1..]), a);
        WithAreaCons(s[0], s[1..], a);
        assert s == [s[0]] + s[1..];
      }
    }
  }

  lemma ListsOwnArea(s: seq<Contour>)
    requires s != []
    ensures WithArea(s, s[0].area) != []
  {
    WithAreaMembers(s, s[0].area, s[0]);
  }

  lemma MemberNotAboveHead(s: seq<Contour>, c: Contour)
    requires SortedByAreaDesc(s) && c in s
    ensures c.area <= s[0].area
  {
    var k :| 0 <= k < |s| && s[k] == c;
  }

  /** Two non-empty stable descending rankings of the same contours start with
      the same contour. */
  lemma HeadsAgree(p: seq<Contour>, q: seq<Contour>)
    requires SortedByAreaDesc(p) && SortedByAreaDesc(q) && p != [] && q != []
    requires SameOrderPerArea(p, q)
    ensures p[0] == q[0]
  {
    WithAreaMembers(p, p[0].area, p[0]);
    WithAreaMembers(q, p[0].area, p[0]);
    MemberNotAboveHead(q, p[0]);
    WithAreaMembers(q, q[0].area, q[0]);
    WithAreaMembers(p, q[0].area, q[0]);
    MemberNotAboveHead(p, q[0]);
    var a0 := p[0].area;
    WithAreaCons(p[0], p[1..], a0);
    WithAreaCons(q[0], q[1..], a0);
    assert p == [p[0]] + p[1..];
    assert q == [q[0]] + q[1..];
    assert WithArea(p, a0)[0] == p[0];
    assert WithArea(q, a0)[0] == q[0];
  }

  lemma TailsSameOrder(p: seq<Contour>, q: seq<Contour>)
    requires p != [] && q != [] && p[0] == q[0]
    requires SameOrderPerArea(p, q)
    ensures SameOrderPerArea(p[1..], q[1..])
  {
    assert p == [p[0]] + p[1..];
    assert q == [q[0]] + q[1..];
    forall a
      ensures WithArea(p[1..], a) == WithArea(q[1..], a)
    {
      WithAreaCons(p[0], p[1..], a);
      WithAreaCons(q[0], q[1..], a);
      var head := if p[0].area == a then [p[0]] else [];
      assert WithArea(p[1..], a) == WithArea(p, a)[|head|..];
      assert WithArea(q[1..], a) == WithArea(q, a)[|head|..];
    }
  }

  /** Two descending rankings that agree on the order within every area are
      equal: there is exactly one stable descending order. */
  lemma {:induction false} StableRankingUnique(p: seq<Contour>, q: seq<Contour>)
    requires SortedByAreaDesc(p) && SortedByAreaDesc(q)
    requires SameOrderPerArea(p, q)
    ensures p == q
    decreases |p|
  {
    if p == [] && q == [] {
    } else if p == [] {
      ListsOwnArea(q);
      assert false;
    } else if q == [] {
      ListsOwnArea(p);
      assert false;
    } else {
      HeadsAgree(p, q);
      TailsSameOrder(p, q);
      StableRankingUnique(p[1..], q[1..]);
      assert p == [p[0]] + p[1..];
      assert q == [q[0]] + q[1..];
    }
  }

  /** Any stable descending ordering of the contours is the one `RankByArea`
      computes. */
  lemma RankByAreaIsTheStableSort(s: seq<Contour>, t: seq<Contour>)
    requires SortedByAreaDesc(t) && SameOrderPerArea(t, s)
    ensures t == RankByArea(s)
  {
    RankByAreaIsStable(s);
    StableRankingUnique(t, RankByArea(s));
  }

  /** The ranked list cut to its first `MaxCandidates` entries (`[:10]`). */
  function TopCandidates(s: seq<Contour>): (r: seq<Contour>)
    ensures |r| == if |s| < MaxCandidates then |s| else MaxCandidates
    ensures r <= RankByArea(s)
  {
    var ranked := RankByArea(s);
    if |ranked| <= MaxCandidates then ranked else ranked[..MaxCandidates]
  }

  /** Index of the first quadrilateral in `s`: the `for ... break` scan. */
  function FirstQuad(s: seq<Contour>): (r: Option<nat>)
    ensures r.Some? ==> r.value < |s| && IsQuad(s[r.value])
    ensures r.Some? ==> forall j :: 0 <= j < r.value ==> !IsQuad(s[j])
    ensures r.None? <==> forall j :: 0 <= j < |s| ==> !IsQuad(s[j])
  {
    if s == [] then None
    else if IsQuad(s[0]) then Some(0)
    else match FirstQuad(s[1..])
      case None => None
      case Some(k) => Some(k + 1)
  }

  /** The contour accepted as the plate outline, if any. */
  function SelectPlateContour(s: seq<Contour>): (r: Option<Contour>)
    ensures r.Some? <==> exists i :: 0 <= i < |s| && i < MaxCandidates && IsQuad(RankByArea(s)[i])
    ensures r.Some? ==> exists i :: 0 <= i < |s| && i < MaxCandidates && RankByArea(s)[i] == r.value
                           && IsQuad(r.value)
                           && forall j :: 0 <= j < i ==> !IsQuad(RankByArea(s)[j])
  {
    var top := TopCandidates(s);
    match FirstQuad(top)
    case None =>
      assert forall i :: 0 <= i < |s| && i < MaxCandidates ==> RankByArea(s)[i] == top[i];
      None
    case Some(i) =>
      assert i < |s| && i < MaxCandidates && RankByArea(s)[i] == top[i];
      assert IsQuad(RankByArea(s)[i]);
      assert exists k :: 0 <= k < |s| && k < MaxCandidates && IsQuad(RankByArea(s)[k]);
      Some(top[i])
  }

  /** `detect_license_plate`: the crop and rectangle of the selected outline,
      or nothing when no quadrilateral is among the ten largest contours. */
  function Detect(image: Image, s: seq<Contour>): (r: Option<Candidate>)
    ensures r.Some? <==> SelectPlateContour(s).Some?
    ensures r.Some? ==> r.value.box == SelectPlateContour(s).value.box
                        && r.value.crop == Crop(image, r.value.box)
  {
    match SelectPlateContour(s)
    case None => None
    case Some(c) => Some(Candidate(Crop(image, c.box), c.box))
  }

  /** In a descending ranking, a strictly larger contour sits earlier. */
  lemma LargerRankedEarlier(r: seq<Contour>, i: int, x: Contour)
    requires SortedByAreaDesc(r) && 0 <= i < |r|
    requires x in r && x.area > r[i].area
    ensures exists j :: 0 <= j < i && r[j] == x
  {
    var j :| 0 <= j < |r| && r[j] == x;
    assert j < i;
  }

  /** Every contour whose area is strictly larger than the selected outline's
      has an approximation with other than four vertices: a larger
      quadrilateral would have been ranked earlier and chosen instead. */
  lemma LargerContoursAreNotQuads(s: seq<Contour>, x: Contour)
    requires SelectPlateContour(s).Some?
    requires x in s && x.area > SelectPlateContour(s).value.area
    ensures !IsQuad(x)
  {
    var c := SelectPlateContour(s).value;
    var r := RankByArea(s);
    var i :| 0 <= i < |s| && i < MaxCandidates && r[i] == c
             && forall j :: 0 <= j < i ==> !IsQuad(r[j]);
    assert x in multiset(r);
    LargerRankedEarlier(r, i, x);
  }

  lemma {:induction false} WithAreaAppend(x: seq<Contour>, y: seq<Contour>, a: real)
    ensures WithArea(x + y, a) == WithArea(x, a) + WithArea(y, a)
  {
    if x != [] {
      WithAreaAppend(x[1..], y, a);
      assert x + y == [x[0]] + (x[1..] + y);
      WithAreaCons(x[0], x[1..] + y, a);
      WithAreaCons(x[0], x[1..], a);
      assert x == [x[0]] + x[1..];
    } else {
      assert x + y == y;
    }
  }

  lemma FirstQuadAfterNonQuads(before: seq<Contour>, c: Contour, after: seq<Contour>)
    requires forall k :: 0 <= k < |before| ==> !IsQuad(before[k])
    requires IsQuad(c)
    ensures FirstQuad(before + [c] + after) == Some(|before|)
  {
    var w := before + [c] + after;
    assert w[|before|] == c;
    var k := FirstQuad(w).value;
    assert k == |before|;
  }

  lemma NoQuadsAmongEqualAreaPrefix(r: seq<Contour>, i: nat, a: real)
    requires i <= |r|
    requires forall j :: 0 <= j < i ==> !IsQuad(r[j])
    ensures forall k :: 0 <= k < |WithArea(r[..i], a)| ==> !IsQuad(WithArea(r[..i], a)[k])
  {
    var before := WithArea(r[..i], a);
    forall k | 0 <= k < |before|
      ensures !IsQuad(before[k])
    {
      assert before[k] in before;
      WithAreaMembers(r[..i], a, before[k]);
      assert before[k] in r[..i];
    }
  }

  lemma FirstQuadOfEqualArea(r: seq<Contour>, i: nat)
    requires i < |r| && IsQuad(r[i])
    requires forall j :: 0 <= j < i ==> !IsQuad(r[j])
    ensures var w := WithArea(r, r[i].area);
            FirstQuad(w) == Some(|WithArea(r[..i], r[i].area)|)
            && w[|WithArea(r[..i], r[i].area)|] == r[i]
  {
    var c := r[i];
    var a := c.area;
    assert r == r[..i] + ([c] + r[i+1..]);
    WithAreaAppend(r[..i], [c] + r[i+1..], a);
    WithAreaCons(c, r[i+1..], a);
    var before := WithArea(r[..i], a);
    assert WithArea(r, a) == before + [c] + WithArea(r[i+1..], a);
    NoQuadsAmongEqualAreaPrefix(r, i, a);
    FirstQuadAfterNonQuads(before, c, WithArea(r[i+1..], a));
  }

  /** Ties are broken by input order: among the input contours of the selected
      outline's own area, in the order they were traced, the selected one is
      the first quadrilateral. */
  lemma TieBrokenByInputOrder(s: seq<Contour>)
    requires SelectPlateContour(s).Some?
    ensures var c := SelectPlateContour(s).value;
            var w := WithArea(s, c.area);
            FirstQuad(w).Some? && w[FirstQuad(w).value] == c
  {
    var c := SelectPlateContour(s).value;
    var r := RankByArea(s);
    var i :| 0 <= i < |s| && i < MaxCandidates && r[i] == c
             && forall j :: 0 <= j < i ==> !IsQuad(r[j]);
    FirstQuadOfEqualArea(r, i);
    RankByAreaIsStable(s);
    assert WithArea(r, c.area) == WithArea(s, c.area);
  }
}

=== FILE: orchestrator.dfy ===
/** The frame loop of `process_video`: read a frame, localise a plate, read
    it, draw a speed, record a violation when the plate text is non-empty and
    the speed exceeds the limit, show the frame, poll for the quit key.
    Display and annotation have no effect on the stored rows and are not
    modelled; the video source becomes a sequence of read outcomes, and the
    speed source, clock, OCR capability and key poll become inputs. */
module Orchestrator {
  import opened Wrappers
  import opened Localizer
  import opened Reader
  import opened ViolationLog

  /** The arguments of `process_video` besides the video path. */
  datatype Config = Config(speedLimit: int, location: string)

  /** One successful `cap.read()` with everything the iteration consumes from
      outside: the frame's grey image and traced contours, the speed drawn for
      it, the clock reading used if a violation is recorded, and the key code
      `cv2.waitKey(1)` returns after the frame is shown (-1 for none). */
  datatype Frame = Frame(image: Image, contours: seq<Contour>, speed: int, stamp: Stamp, key: int)

  /** The outcome of one `cap.read()`: a frame, or `ret` false. */
  datatype FrameRead = Read(frame: Frame) | ReadFailed

  /** How a run ends: normally (end of video or quit key), or by the exception
      `record_violation` raises when the workbook file is missing. */
  datatype Outcome = Completed(store: Store) | Aborted(store: Store, error: LogError)

  /** `ord('q')`. */
  const QuitKey: int := 113

  /** `cv2.waitKey(1) & 0xFF == ord('q')`; Python's `& 0xFF` is the
      non-negative remainder modulo 256, also for the -1 of "no key". */
  predicate QuitRequested(key: int) {
    key % 256 == QuitKey
  }

  /** The quit test looks at the low byte of the key code only: modifier
      bits above it do not matter, `q` quits, while no key (-1) and `Q` do
      not. */
  lemma QuitKeyLowByte(key: int, k: int)
    ensures QuitRequested(key + 256 * k) <==> QuitRequested(key)
    ensures QuitRequested(QuitKey) && !QuitRequested(-1) && !QuitRequested(81)
  {
    assert (key + 256 * k) % 256 == key % 256;
  }

  /** `np.random.randint(limit - 20, limit + 30)`: the upper bound is
      exclusive. */
  predicate SpeedInRange(limit: int, speed: int) {
    limit - 20 <= speed < limit + 30
  }

  /** The OCR text of the selected plate region of `f`, before stripping
      (empty when no region is selected). */
  function PlateText(f: Frame, ocr: Crop -> string): string {
    match SelectPlateContour(f.contours)
    case None => ""
    case Some(c) => ocr(Crop(f.image, c.box))
  }

  /** A frame qualifies as a violation when a plate region was found, its
      OCR text is not all whitespace (so the stripped text is truthy), and the
      speed exceeds the limit. */
  ghost predicate Qualifies(f: Frame, cfg: Config, ocr: Crop -> string) {
    && SelectPlateContour(f.contours).Some?
    && !AllSpace(PlateText(f, ocr))
    && f.speed > cfg.speedLimit
  }

  /** The violation `f` gives rise to, if any. */
  function Decide(f: Frame, cfg: Config, ocr: Crop -> string): (r: Option<Violation>)
    ensures r.Some? <==> Qualifies(f, cfg, ocr)
    ensures r.Some? ==> r.value == Violation(f.stamp, Strip(PlateText(f, ocr)), f.speed, cfg.location)
  {
    match Detect(f.image, f.contours)
    case None => None
    case Some(candidate) =>
      var plate := ReadPlate(Some(candidate.crop), ocr).value;
      StripEmptyIffBlank(ocr(candidate.crop));
      if plate != [] && f.speed > cfg.speedLimit then
        Some(Violation(f.stamp, plate, f.speed, cfg.location))
      else
        None
  }

  /** Records the frame's violation, if it has one. */
  function RecordDecision(store: Store, d: Option<Violation>): (r: Result<Store, LogError>)
    ensures d.None? ==> r == Success(store)
    ensures d.Some? && store.None? ==> r == Failure(MissingWorkbook)
    ensures d.Some? && store.Some? ==> r == Success(Some(store.value + [ViolationRow(d.value)]))
  {
    match d
    case None => Success(store)
    case Some(v) =>
      RecordAppendsRow(store, v);
      match Record(store, v)
      case Failure(e) => Failure(e)
      case Success(rows) => Success(Some(rows))
  }

  /** One loop iteration's effect on the workbook. */
  function Step(store: Store, f: Frame, cfg: Config, ocr: Crop -> string): (r: Result<Store, LogError>)
    ensures Decide(f, cfg, ocr).None? ==> r == Success(store)
    ensures Decide(f, cfg, ocr).Some? && store.None? ==> r == Failure(MissingWorkbook)
    ensures Decide(f, cfg, ocr).Some? && store.Some? ==>
              r == Success(Some(store.value + [ViolationRow(Decide(f, cfg, ocr).value)]))
  {
    RecordDecision(store, Decide(f, cfg, ocr))
  }

  /** The `while` loop once the capture is open: stops at the first failed
      read, after a frame whose key poll asked to quit, or when recording
      raises. */
  function Run(store: Store, feed: seq<FrameRead>, cfg: Config, ocr: Crop -> string): (r: Outcome)
    ensures store.Some? ==> r.Completed? && r.store.Some? && |r.store.value| >= |store.value|
    ensures store.Some? ==> r.store.value[..|store.value|] == store.value
    ensures store.None? ==> r.store.None?
    ensures r.Aborted? ==> store.None? && r.error == MissingWorkbook
    decreases |feed|
  {
    if feed == [] || feed[0].ReadFailed? then Completed(store)
    else
      var f := feed[0].frame;
      match Step(store, f, cfg, ocr)
      case Failure(e) => Aborted(store, e)
      case Success(next) =>
        if QuitRequested(f.key) then Completed(next) else Run(next, feed[1..], cfg, ocr)
  }

  /** The frames the loop processes: those before the first failed read, up to
      and including the first one whose key poll asks to quit. */
  function Processed(feed: seq<FrameRead>): (r: seq<Frame>)
    ensures |r| <= |feed|
    ensures forall k :: 0 <= k < |r| ==> feed[k] == Read(r[k])
    ensures forall k :: 0 <= k < |r| - 1 ==> !QuitRequested(r[k].key)
    ensures |r| < |feed| ==> feed[|r|].ReadFailed? || (r != [] && QuitRequested(r[|r| - 1].key))
  {
    if feed == [] || feed[0].ReadFailed? then []
    else if QuitRequested(feed[0].frame.key) then [feed[0].frame]
    else [feed[0].frame] + Processed(feed[1..])
  }

  /** The violations a sequence of frames gives rise to, in frame order. */
  function ViolationsOf(frames: seq<Frame>, cfg: Config, ocr: Crop -> string): seq<Violation> {
    if frames == [] then [] else FrameViolations(frames[0], cfg, ocr) + ViolationsOf(frames[1..], cfg, ocr)
  }

  /** The violation one frame gives rise to, if any. */
  function FrameViolations(f: Frame, cfg: Config, ocr: Crop -> string): seq<Violation> {
    Found(Decide(f, cfg, ocr))
  }

  /** A decision as a sequence of at most one violation. */
  function Found(d: Option<Violation>): seq<Violation> {
    match d
    case None => []
    case Some(v) => [v]
  }

  lemma ViolationsOfCons(f: Frame, frames: seq<Frame>, cfg: Config, ocr: Crop -> string)
    ensures ViolationsOf([f] + frames, cfg, ocr) == FrameViolations(f, cfg, ocr) + ViolationsOf(frames, cfg, ocr)
  {
    assert ([f] + frames)[0] == f;
    assert ([f] + frames)[1..] == frames;
  }

  lemma ViolationsOfSingle(f: Frame, cfg: Config, ocr: Crop -> string)
    ensures ViolationsOf([f], cfg, ocr) == FrameViolations(f, cfg, ocr)
  {
    ViolationsOfCons(f, [], cfg, ocr);
    assert [f] + [] == [f];
  }

  /** One iteration on an existing workbook appends the frame's own
      violations, of which there is at most one. */
  lemma StepAppendsOwnViolation(rows: seq<Row>, f: Frame, cfg: Config, ocr: Crop -> string)
    ensures |FrameViolations(f, cfg, ocr)| <= 1
    ensures Step(Some(rows), f, cfg, ocr) == Success(Some(rows + ViolationRows(FrameViolations(f, cfg, ocr))))
  {
    RecordDecisionAppends(rows, Decide(f, cfg, ocr));
  }

  lemma RecordDecisionAppends(rows: seq<Row>, d: Option<Violation>)
    ensures |Found(d)| <= 1
    ensures RecordDecision(Some(rows), d) == Success(Some(rows + ViolationRows(Found(d))))
  {
    if d.None? {
      assert rows + ViolationRows([]) == rows;
    } else {
      assert ViolationRows([d.value]) == [ViolationRow(d.value)];
    }
  }

  lemma RunUnfold(store: Store, next: Store, feed: seq<FrameRead>, cfg: Config, ocr: Crop -> string)
    requires feed != [] && feed[0].Read?
    requires Step(store, feed[0].frame, cfg, ocr) == Success(next)
    ensures Run(store, feed, cfg, ocr)
            == if QuitRequested(feed[0].frame.key) then Completed(next) else Run(next, feed[1..], cfg, ocr)
  {
  }

  /** On an existing workbook the loop never raises, and the workbook ends as
      its earlier rows followed by one row per qualifying frame, in frame
      order. */
  lemma {:induction false} RunAppendsViolationsInOrder(rows: seq<Row>, feed: seq<FrameRead>,
                                                        cfg: Config, ocr: Crop -> string)
    ensures Run(Some(rows), feed, cfg, ocr)
            == Completed(Some(rows + ViolationRows(ViolationsOf(Processed(feed), cfg, ocr))))
    decreases |feed|
  {
    if feed == [] || feed[0].ReadFailed? {
      assert Processed(feed) == [];
      assert rows + ViolationRows([]) == rows;
    } else {
      var f := feed[0].frame;
      var mine := FrameViolations(f, cfg, ocr);
      StepAppendsOwnViolation(rows, f, cfg, ocr);
      var next := rows + ViolationRows(mine);
      RunUnfold(Some(rows), Some(next), feed, cfg, ocr);
      if QuitRequested(f.key) {
        assert Processed(feed) == [f];
        ViolationsOfSingle(f, cfg, ocr);
      } else {
        assert Processed(feed) == [f] + Processed(feed[1..]);
        RunAppendsViolationsInOrder(next, feed[1..], cfg, ocr);
        var later := ViolationsOf(Processed(feed[1..]), cfg, ocr);
        ViolationsOfCons(f, Processed(feed[1..]), cfg, ocr);
        ConcatRows(rows, mine, later);
      }
    }
  }

  lemma ConcatRows(rows: seq<Row>, a: seq<Violation>, b: seq<Violation>)
    ensures rows + ViolationRows(a) + ViolationRows(b) == rows + ViolationRows(a + b)
  {
    ViolationRowsAppend(a, b);
  }

  /** Without a workbook the loop changes nothing: it raises at the first
      processed frame that qualifies, and completes when none does. */
  lemma {:induction false} RunOnMissingWorkbook(feed: seq<FrameRead>, cfg: Config, ocr: Crop -> string)
    ensures Run(None, feed, cfg, ocr)
            == if ViolationsOf(Processed(feed), cfg, ocr) == [] then Completed(None)
               else Aborted(None, MissingWorkbook)
    decreases |feed|
  {
    if feed == [] || feed[0].ReadFailed? {
      assert Processed(feed) == [];
    } else {
      var f := feed[0].frame;
      if Decide(f, cfg, ocr).Some? {
        assert Run(None, feed, cfg, ocr) == Aborted(None, MissingWorkbook);
        if QuitRequested(f.key) {
          assert Processed(feed) == [f];
          ViolationsOfSingle(f, cfg, ocr);
        } else {
          assert Processed(feed) == [f] + Processed(feed[1..]);
          ViolationsOfCons(f, Processed(feed[1..]), cfg, ocr);
        }
      } else {
        RunUnfold(None, None, feed, cfg, ocr);
        if QuitRequested(f.key) {
          assert Processed(feed) == [f];
          ViolationsOfSingle(f, cfg, ocr);
        } else {
          assert Processed(feed) == [f] + Processed(feed[1..]);
          ViolationsOfCons(f, Processed(feed[1..]), cfg, ocr);
          RunOnMissingWorkbook(feed[1..], cfg, ocr);
        }
      }
    }
  }

  /** `process_video`: a capture that failed to open runs no iteration. On an
      existing workbook the run completes, having appended one row per
      qualifying processed frame; without one it raises at the first
      qualifying frame. */
  function ProcessVideo(store: Store, isOpened: bool, feed: seq<FrameRead>, cfg: Config,
                        ocr: Crop -> string): (r: Outcome)
    ensures !isOpened ==> r == Completed(store)
    ensures isOpened && store.Some? ==>
              r == Completed(Some(store.value + ViolationRows(ViolationsOf(Processed(feed), cfg, ocr))))
    ensures isOpened && store.None? ==>
              r == if ViolationsOf(Processed(feed), cfg, ocr) == [] then Completed(None)
                   else Aborted(None, MissingWorkbook)
  {
    if !isOpened then Completed(store)
    else if store.None? then
      RunOnMissingWorkbook(feed, cfg, ocr);
      Run(store, feed, cfg, ocr)
    else
      RunAppendsViolationsInOrder(store.value, feed, cfg, ocr);
      Run(store, feed, cfg, ocr)
  }

  /** The example entry point: construct the system (which initialises the
      workbook) and process one video. */
  function Session(file: Store, isOpened: bool, feed: seq<FrameRead>, cfg: Config,
                   ocr: Crop -> string): (r: Outcome)
    ensures r.Completed? && r.store.Some?
    ensures file.None? ==> |r.store.value| >= 1 && r.store.value[0] == Header
    ensures Violations(r.store.value)
            == Violations(Initialize(file).value)
               + (if isOpened then ViolationsOf(Processed(feed), cfg, ocr) else [])
  {
    var store := Initialize(file);
    var added := if isOpened then ViolationsOf(Processed(feed), cfg, ocr) else [];
    ViolationsAppend(store.value, ViolationRows(added));
    ViolationRowsReadBack(added);
    ProcessVideo(store, isOpened, feed, cfg, ocr)
  }

  /** A frame is recorded only when no frame-level condition fails; the
      sequence of recorded violations is empty exactly when no frame
      qualifies. */
  lemma {:induction false} NoViolationsIffNoFrameQualifies(frames: seq<Frame>, cfg: Config, ocr: Crop -> string)
    ensures ViolationsOf(frames, cfg, ocr) == [] <==> forall f :: f in frames ==> !Qualifies(f, cfg, ocr)
  {
    if frames != [] {
      var rest := frames[1..];
      assert frames == [frames[0]] + rest;
      ViolationsOfCons(frames[0], rest, cfg, ocr);
      NoViolationsIffNoFrameQualifies(rest, cfg, ocr);
      if !Qualifies(frames[0], cfg, ocr) {
        assert forall f :: f in frames <==> f == frames[0] || f in rest;
      }
    }
  }

  /** Frames in which no plate region is found leave the workbook unchanged,
      however many of them there are. */
  lemma NoDetectionLeavesLogUnchanged(rows: seq<Row>, feed: seq<FrameRead>, cfg: Config, ocr: Crop -> string)
    requires forall k :: 0 <= k < |feed| && feed[k].Read? ==> SelectPlateContour(feed[k].frame.contours).None?
    ensures Run(Some(rows), feed, cfg, ocr) == Completed(Some(rows))
  {
    var frames := Processed(feed);
    forall f | f in frames
      ensures !Qualifies(f, cfg, ocr)
    {
      var k :| 0 <= k < |frames| && frames[k] == f;
      assert feed[k] == Read(f);
    }
    NoViolationsIffNoFrameQualifies(frames, cfg, ocr);
    RunAppendsViolationsInOrder(rows, feed, cfg, ocr);
    assert rows + ViolationRows([]) == rows;
  }

  /** Every recorded violation carries a non-empty, already stripped plate,
      the configured location, and a speed above the limit; with speeds drawn
      from the simulated range, the speed is at most `limit + 29`. */
  lemma {:induction false} RecordedViolationsAreSound(frames: seq<Frame>, cfg: Config, ocr: Crop -> string)
    requires forall k :: 0 <= k < |frames| ==> SpeedInRange(cfg.speedLimit, frames[k].speed)
    ensures forall v :: v in ViolationsOf(frames, cfg, ocr) ==> SoundViolation(v, cfg)
  {
    if frames != [] {
      assert frames == [frames[0]] + frames[1..];
      ViolationsOfCons(frames[0], frames[1..], cfg, ocr);
      RecordedViolationsAreSound(frames[1..], cfg, ocr);
      FrameViolationIsSound(frames[0], cfg, ocr);
    }
  }

  /** What every recorded violation satisfies when the speed is drawn from
      the simulated range. */
  ghost predicate SoundViolation(v: Violation, cfg: Config) {
    && cfg.speedLimit < v.speed <= cfg.speedLimit + 29
    && v.plate != [] && Strip(v.plate) == v.plate
    && v.location == cfg.location
  }

  lemma FrameViolationIsSound(f: Frame, cfg: Config, ocr: Crop -> string)
    requires SpeedInRange(cfg.speedLimit, f.speed)
    ensures forall v :: v in FrameViolations(f, cfg, ocr) ==> SoundViolation(v, cfg)
  {
    var d := Decide(f, cfg, ocr);
    DecisionIsSound(f, cfg, ocr);
    FoundIsSound(d, cfg);
  }

  lemma DecisionIsSound(f: Frame, cfg: Config, ocr: Crop -> string)
    requires SpeedInRange(cfg.speedLimit, f.speed)
    ensures Decide(f, cfg, ocr).Some? ==> SoundViolation(Decide(f, cfg, ocr).value, cfg)
  {
    var d := Decide(f, cfg, ocr);
    if d.Some? {
      var t := PlateText(f, ocr);
      assert Qualifies(f, cfg, ocr);
      assert d.value == Violation(f.stamp, Strip(t), f.speed, cfg.location);
      assert !AllSpace(t);
      StripEmptyIffBlank(t);
      StripIdempotent(t);
    }
  }

  lemma FoundIsSound(d: Option<Violation>, cfg: Config)
    requires d.Some? ==> SoundViolation(d.value, cfg)
    ensures forall v :: v in Found(d) ==> SoundViolation(v, cfg)
  {
  }

  lemma StripOfOcrSample()
    ensures Strip("AB12CD\n\U{C}") == "AB12CD"
  {
    var text := "AB12CD\n\U{C}";
    assert !IsSpace(text[0]);
    assert TrimStart(text) == text;
    assert IsSpace(text[7]) && IsSpace(text[6]) && !IsSpace(text[5]);
    assert text[..7] == "AB12CD\n";
    assert text[..7][..6] == "AB12CD";
    assert TrimEnd(text[..7][..6]) == "AB12CD";
    assert TrimEnd(text[..7]) == "AB12CD";
    assert TrimEnd(text) == "AB12CD";
  }

  lemma SelectSecondLargest(other: Contour, plate: Contour)
    requires other.area > plate.area && !IsQuad(other) && IsQuad(plate)
    ensures SelectPlateContour([other, plate]) == Some(plate)
  {
    assert [other, plate][1..] == [plate];
    assert [plate][1..] == [];
    assert RankByArea([plate]) == [plate];
    assert RankByArea([other, plate]) == [other, plate];
    assert TopCandidates([other, plate]) == [other, plate];
  }

  /** A frame whose second largest contour is the only quadrilateral, read
      as "AB12CD" followed by the newline and form feed the OCR engine appends,
      at speed 75 against the limit 60, qualifies with the plate "AB12CD". */
  lemma SampleFrameQualifies(f: Frame, ocr: Crop -> string, other: Contour, plate: Contour)
    requires f.contours == [other, plate] && other.area > plate.area && !IsQuad(other) && IsQuad(plate)
    requires ocr(Crop(f.image, plate.box)) == "AB12CD\n\U{C}"
    requires f.speed == 75
    ensures Decide(f, Config(60, "Main Street"), ocr) == Some(Violation(f.stamp, "AB12CD", 75, "Main Street"))
  {
    var cfg := Config(60, "Main Street");
    SamplePlateText(f, ocr, other, plate);
    assert Qualifies(f, cfg, ocr);
    StripOfOcrSample();
  }

  lemma SamplePlateText(f: Frame, ocr: Crop -> string, other: Contour, plate: Contour)
    requires f.contours == [other, plate] && other.area > plate.area && !IsQuad(other) && IsQuad(plate)
    requires ocr(Crop(f.image, plate.box)) == "AB12CD\n\U{C}"
    ensures SelectPlateContour(f.contours).Some?
    ensures PlateText(f, ocr) == "AB12CD\n\U{C}" && !AllSpace(PlateText(f, ocr))
  {
    SelectSecondLargest(other, plate);
    assert PlateText(f, ocr) == ocr(Crop(f.image, plate.box));
    SampleTextNotBlank();
  }

  lemma SampleTextNotBlank()
    ensures !AllSpace("AB12CD\n\U{C}")
  {
    var text := "AB12CD\n\U{C}";
    assert !IsSpace(text[0]);
  }

  /** The scenario above as a run: that frame followed by the end of the
      video appends exactly one row, holding the frame's date and time,
      "AB12CD", 75 and "Main Street", after the existing rows. */
  lemma ScenarioSingleViolation(rows: seq<Row>, f: Frame, ocr: Crop -> string, other: Contour, plate: Contour)
    requires f.contours == [other, plate] && other.area > plate.area && !IsQuad(other) && IsQuad(plate)
    requires ocr(Crop(f.image, plate.box)) == "AB12CD\n\U{C}"
    requires f.speed == 75
    ensures Run(Some(rows), [Read(f), ReadFailed], Config(60, "Main Street"), ocr)
            == Completed(Some(rows + [Row(Text(f.stamp.date), Text(f.stamp.time), Text("AB12CD"),
                                          Number(75), Text("Main Street"))]))
  {
    var cfg := Config(60, "Main Street");
    var v := Violation(f.stamp, "AB12CD", 75, "Main Street");
    var feed := [Read(f), ReadFailed];
    SampleFrameQualifies(f, ocr, other, plate);
    ProcessedUpToFailedRead(f);
    SingleViolation(f, cfg, ocr);
    RunAppendsViolationsInOrder(rows, feed, cfg, ocr);
  }

  lemma ProcessedUpToFailedRead(f: Frame)
    ensures Processed([Read(f), ReadFailed]) == [f]
  {
    assert [Read(f), ReadFailed][1..] == [ReadFailed];
  }

  lemma SingleViolation(f: Frame, cfg: Config, ocr: Crop -> string)
    ensures var d := Decide(f, cfg, ocr);
            d.Some? ==> ViolationRows(ViolationsOf([f], cfg, ocr)) == [ViolationRow(d.value)]
  {
    ViolationsOfSingle(f, cfg, ocr);
  }
}

=== FILE: reader.dfy ===
/** Plate reading (`read_license_plate`): the OCR capability, run in its
    single-word page-segmentation mode, turns a crop into text, and the text is
    stripped of surrounding whitespace as Python's `str.strip()` does. The OCR
    capability itself is a parameter. */
module Reader {
  import opened Wrappers
  import opened Localizer

  /** Python's `str.isspace` for one character: the ASCII whitespace and
      separator controls, NEL, NO-BREAK SPACE and the Unicode space separators,
      line separator and paragraph separator. */
  predicate IsSpace(ch: char) {
    var n := ch as int;
    || n == 0x20
    || 0x09 <= n <= 0x0D
    || 0x1C <= n <= 0x1F
    || n == 0x85 || n == 0xA0 || n == 0x1680
    || 0x2000 <= n <= 0x200A
    || n == 0x2028 || n == 0x2029 || n == 0x202F || n == 0x205F || n == 0x3000
  }

  ghost predicate AllSpace(s: string) {
    forall k :: 0 <= k < |s| ==> IsSpace(s[k])
  }

  /** The slice `s[i..j]` is what remains of `s` once its surrounding
      whitespace is removed: everything outside it is whitespace, and a
      non-empty slice neither starts nor ends with whitespace. */
  ghost predicate StripBounds(s: string, i: int, j: int) {
    && 0 <= i <= j <= |s|
    && AllSpace(s[..i]) && AllSpace(s[j..])
    && (i < j ==> !IsSpace(s[i]) && !IsSpace(s[j - 1]))
  }

  /** `t` is `s` with its leading and trailing whitespace removed. */
  ghost predicate IsStripOf(t: string, s: string) {
    exists i, j :: StripBounds(s, i, j) && t == s[i..j]
  }

  /** Removes leading whitespace (`str.lstrip()`). */
  function TrimStart(s: string): (r: string)
    ensures |r| <= |s| && r == s[|s| - |r|..]
    ensures AllSpace(s[..|s| - |r|])
    ensures r != [] ==> !IsSpace(r[0])
  {
    if s != [] && IsSpace(s[0]) then
      var r := TrimStart(s[1..]);
      TrimStartStep(s, r);
      r
    else s
  }

  lemma TrimStartStep(s: string, r: string)
    requires s != [] && IsSpace(s[0])
    requires |r| <= |s| - 1 && r == s[1..][|s| - 1 - |r|..]
    requires AllSpace(s[1..][..|s| - 1 - |r|])
    ensures r == s[|s| - |r|..] && AllSpace(s[..|s| - |r|])
  {
    var n := |s| - |r|;
    assert s[1..][n - 1..] == s[n..];
    forall k | 0 <= k < n
      ensures IsSpace(s[..n][k])
    {
      if k > 0 {
        assert s[..n][k] == s[1..][..n - 1][k - 1];
      }
    }
  }

  /** Removes trailing whitespace (`str.rstrip()`). */
  function TrimEnd(s: string): (r: string)
    ensures |r| <= |s| && r == s[..|r|]
    ensures AllSpace(s[|r|..])
    ensures r != [] ==> !IsSpace(r[|r| - 1])
  {
    if s != [] && IsSpace(s[|s| - 1]) then
      var r := TrimEnd(s[..|s| - 1]);
      TrimEndStep(s, r);
      r
    else s
  }

  lemma TrimEndStep(s: string, r: string)
    requires s != [] && IsSpace(s[|s| - 1])
    requires |r| <= |s| - 1 && r == s[..|s| - 1][..|r|]
    requires AllSpace(s[..|s| - 1][|r|..])
    ensures r == s[..|r|] && AllSpace(s[|r|..])
  {
    var n := |r|;
    assert s[..|s| - 1][..n] == s[..n];
    forall k | 0 <= k < |s| - n
      ensures IsSpace(s[n..][k])
    {
      if k < |s| - 1 - n {
        assert s[n..][k] == s[..|s| - 1][n..][k];
      }
    }
  }

  lemma StripWitness(s: string)
    ensures IsStripOf(TrimEnd(TrimStart(s)), s)
  {
    var tail := TrimStart(s);
    StripBoundsOfTrims(s, tail, TrimEnd(tail));
  }

  lemma StripBoundsOfTrims(s: string, tail: string, r: string)
    requires |tail| <= |s| && tail == s[|s| - |tail|..] && AllSpace(s[..|s| - |tail|])
    requires tail != [] ==> !IsSpace(tail[0])
    requires |r| <= |tail| && r == tail[..|r|] && AllSpace(tail[|r|..])
    requires r != [] ==> !IsSpace(r[|r| - 1])
    ensures IsStripOf(r, s)
  {
    var i := |s| - |tail|;
    var j := i + |r|;
    assert r == s[i..j];
    assert s[j..] == tail[|r|..];
    if r != [] {
      assert r[0] == tail[0] == s[i];
      assert r[|r| - 1] == s[j - 1];
    }
    assert StripBounds(s, i, j);
  }

  /** `str.strip()` with no argument. */
  function Strip(s: string): (r: string)
    ensures IsStripOf(r, s)
  {
    StripWitness(s);
    TrimEnd(TrimStart(s))
  }

  lemma BlankOutsideMeansBlank(s: string, i: int, j: int)
    requires StripBounds(s, i, j) && i == j
    ensures AllSpace(s)
  {
    forall k | 0 <= k < |s|
      ensures IsSpace(s[k])
    {
      if k < i {
        assert s[k] == s[..i][k];
      } else {
        assert s[k] == s[j..][k - j];
      }
    }
  }

  lemma StartsAgree(s: string, i1: int, j1: int, i2: int, j2: int)
    requires StripBounds(s, i1, j1) && StripBounds(s, i2, j2) && i1 < j1 && i2 < j2
    ensures i1 == i2
  {
  }

  lemma EndsAgree(s: string, i1: int, j1: int, i2: int, j2: int)
    requires StripBounds(s, i1, j1) && StripBounds(s, i2, j2) && i1 < j1 && i2 < j2
    ensures j1 == j2
  {
  }

  lemma BlankOnlyIfAllBlank(s: string, i1: int, j1: int, i2: int, j2: int)
    requires StripBounds(s, i1, j1) && StripBounds(s, i2, j2) && i1 == j1
    ensures i2 == j2
  {
    BlankOutsideMeansBlank(s, i1, j1);
  }

  /** `IsStripOf` determines the stripped text: whitespace removal has exactly
      one outcome. */
  lemma StripUnique(t1: string, t2: string, s: string)
    requires IsStripOf(t1, s) && IsStripOf(t2, s)
    ensures t1 == t2
  {
    var i1, j1 :| StripBounds(s, i1, j1) && t1 == s[i1..j1];
    var i2, j2 :| StripBounds(s, i2, j2) && t2 == s[i2..j2];
    if i1 == j1 {
      BlankOnlyIfAllBlank(s, i1, j1, i2, j2);
    } else if i2 == j2 {
      BlankOnlyIfAllBlank(s, i2, j2, i1, j1);
    } else {
      StartsAgree(s, i1, j1, i2, j2);
      EndsAgree(s, i1, j1, i2, j2);
    }
  }

  /** Text with no whitespace at either end strips to itself. */
  lemma StripOfTrimmed(t: string)
    requires t != [] ==> !IsSpace(t[0]) && !IsSpace(t[|t| - 1])
    ensures Strip(t) == t
  {
    assert t == t[0..|t|] && t[..0] == [] && t[|t|..] == [];
    assert StripBounds(t, 0, |t|);
    StripUnique(Strip(t), t, t);
  }

  lemma EndsOfSlice(s: string, i: int, j: int)
    requires StripBounds(s, i, j)
    ensures var t := s[i..j]; t != [] ==> !IsSpace(t[0]) && !IsSpace(t[|t| - 1])
  {
    var t := s[i..j];
    if t != [] {
      assert t[0] == s[i] && t[|t| - 1] == s[j - 1];
    }
  }

  /** Stripping twice is stripping once. */
  lemma StripIdempotent(s: string)
    ensures Strip(Strip(s)) == Strip(s)
  {
    var t := Strip(s);
    var i, j :| StripBounds(s, i, j) && t == s[i..j];
    EndsOfSlice(s, i, j);
    StripOfTrimmed(t);
  }

  /** The stripped text is empty exactly when the OCR text is all whitespace. */
  lemma StripEmptyIffBlank(s: string)
    ensures Strip(s) == [] <==> AllSpace(s)
  {
    var t := Strip(s);
    var i, j :| StripBounds(s, i, j) && t == s[i..j];
    if t == [] {
      BlankOutsideMeansBlank(s, i, j);
    }
  }

  /** `read_license_plate`: nothing when there is no crop, otherwise the OCR
      text of the crop with surrounding whitespace removed (possibly empty). */
  function ReadPlate(crop: Option<Crop>, ocr: Crop -> string): (r: Option<string>)
    ensures r.None? <==> crop.None?
    ensures crop.Some? ==> IsStripOf(r.value, ocr(crop.value))
  {
    match crop
    case None => None
    case Some(c) => Some(Strip(ocr(c)))
  }
}

=== FILE: violation_log.dfy ===
/** The violation workbook (`initialize_excel`, `record_violation`): a single
    sheet of five-column rows, a header row first and one row per recorded
    violation after it. The file on disk is an in-memory store; loading and
    saving are the identity on it. */
module ViolationLog {
  import opened Wrappers

  /** A spreadsheet cell: text, or an integer (the speed column). */
  datatype Cell = Text(text: string) | Number(value: int)

  /** One sheet row: Date, Time, License Plate, Speed (km/h), Location. */
  datatype Row = Row(date: Cell, time: Cell, plate: Cell, speed: Cell, location: Cell)

  /** The clock reading taken when a violation is recorded, already formatted
      as `%Y-%m-%d` and `%H:%M:%S`. */
  datatype Stamp = Stamp(date: string, time: string)

  /** A violation as it is handed to the recorder and as it reads back. */
  datatype Violation = Violation(stamp: Stamp, plate: string, speed: int, location: string)

  /** The workbook file: `None` when it does not exist, otherwise its rows. */
  type Store = Option<seq<Row>>

  /** `load_workbook` on a path that does not exist raises. */
  datatype LogError = MissingWorkbook

  const Header: Row :=
    Row(Text("Date"), Text("Time"), Text("License Plate"), Text("Speed (km/h)"), Text("Location"))

  /** `initialize_excel`: creates the workbook holding only the header when the
      file is absent, and leaves an existing workbook alone. */
  function Initialize(store: Store): (r: Store)
    ensures r.Some?
    ensures store.None? ==> r == Some([Header])
    ensures store.Some? ==> r == store
  {
    if store.None? then Some([Header]) else store
  }

  /** The row `ws.append` receives for a violation. */
  function ViolationRow(v: Violation): Row {
    Row(Text(v.stamp.date), Text(v.stamp.time), Text(v.plate), Number(v.speed), Text(v.location))
  }

  /** Reads a sheet row back as a violation; rows whose speed cell is not a
      number, such as the header, are not violations. */
  function ParseRow(row: Row): Option<Violation> {
    match row
    case Row(Text(d), Text(t), Text(p), Number(s), Text(l)) => Some(Violation(Stamp(d, t), p, s, l))
    case _ => None
  }

  /** The row written for a violation reads back as that violation, and no
      two violations share a row. */
  lemma ViolationRowReadsBack(v: Violation, w: Violation)
    ensures ParseRow(ViolationRow(v)) == Some(v)
    ensures ViolationRow(v) == ViolationRow(w) <==> v == w
  {
    assert ParseRow(ViolationRow(w)) == Some(w);
  }

  /** `record_violation`: loads the workbook, appends one row after the last
      one, and saves; fails when the workbook file does not exist. */
  function Record(store: Store, v: Violation): (r: Result<seq<Row>, LogError>)
    ensures r.Success? <==> store.Some?
    ensures store.Some? ==> |r.value| == |store.value| + 1
    ensures store.Some? ==> r.value[..|store.value|] == store.value
    ensures store.Some? ==> ParseRow(r.value[|store.value|]) == Some(v)
  {
    match store
    case None => Failure(MissingWorkbook)
    case Some(rows) => Success(rows + [ViolationRow(v)])
  }

  /** The rows appended for a run of violations, one per violation, in order. */
  function ViolationRows(vs: seq<Violation>): (r: seq<Row>)
    ensures |r| == |vs|
    ensures forall k :: 0 <= k < |vs| ==> r[k] == ViolationRow(vs[k])
  {
    seq(|vs|, k requires 0 <= k < |vs| => ViolationRow(vs[k]))
  }

  /** Initialisation run `n` times in a row, as when the system is started
      `n` times against the same file. */
  function InitializeTimes(store: Store, n: nat): Store
    decreases n
  {
    if n == 0 then store else InitializeTimes(Initialize(store), n - 1)
  }

  /** However often initialisation runs, the result is that of running it
      once: an absent file gets the single header row, an existing file keeps
      its rows untouched. */
  lemma {:induction false} RepeatedInitializeIsInitialize(store: Store, n: nat)
    requires n >= 1
    ensures InitializeTimes(store, n) == Initialize(store)
    ensures store.None? ==> InitializeTimes(store, n) == Some([Header])
    ensures store.Some? ==> InitializeTimes(store, n) == store
    decreases n
  {
    if n > 1 {
      RepeatedInitializeIsInitialize(Initialize(store), n - 1);
    }
  }

  /** The header is never a violation row, so it cannot be confused with one. */
  lemma HeaderIsNotAViolation()
    ensures ParseRow(Header) == None
  {
  }

  /** The rows of `rows` that read back as violations, in sheet order. */
  function Violations(rows: seq<Row>): seq<Violation> {
    if rows == [] then [] else RowViolations(rows[0]) + Violations(rows[1..])
  }

  /** The violation a single row holds, if it holds one. */
  function RowViolations(row: Row): seq<Violation> {
    match ParseRow(row)
    case None => []
    case Some(v) => [v]
  }

  lemma ViolationsCons(row: Row, rest: seq<Row>)
    ensures Violations([row] + rest) == RowViolations(row) + Violations(rest)
  {
    assert ([row] + rest)[0] == row;
    assert ([row] + rest)[1..] == rest;
  }

  lemma {:induction false} ViolationsAppend(rows: seq<Row>, more: seq<Row>)
    ensures Violations(rows + more) == Violations(rows) + Violations(more)
  {
    if rows == [] {
      assert rows + more == more;
    } else {
      var row, rest := rows[0], rows[1..];
      assert rows == [row] + rest;
      assert rows + more == [row] + (rest + more);
      ViolationsAppend(rest, more);
      ViolationsCons(row, rest + more);
      ViolationsCons(row, rest);
    }
  }

  /** Recording then reading the sheet back yields the earlier violations
      followed by exactly the recorded one, field for field. */
  lemma RecordReadsBack(rows: seq<Row>, v: Violation)
    ensures Record(Some(rows), v).Success?
    ensures Violations(Record(Some(rows), v).value) == Violations(rows) + [v]
  {
    ViolationsAppend(rows, [ViolationRow(v)]);
    assert [ViolationRow(v)][1..] == [];
  }

  /** A freshly initialised workbook holds the header and no violations. */
  lemma FreshWorkbookHasNoViolations()
    ensures Initialize(None) == Some([Header])
    ensures Violations(Initialize(None).value) == []
  {
    assert [Header][1..] == [];
  }

  /** Reading back the rows written for a run of violations gives that run. */
  lemma {:induction false} ViolationRowsReadBack(vs: seq<Violation>)
    ensures Violations(ViolationRows(vs)) == vs
  {
    if vs != [] {
      var rows := ViolationRows(vs);
      ViolationRowsReadBack(vs[1..]);
      assert rows[1..] == ViolationRows(vs[1..]);
      assert ParseRow(rows[0]) == Some(vs[0]);
      assert vs == [vs[0]] + vs[1..];
    }
  }

  lemma ViolationRowsAppend(a: seq<Violation>, b: seq<Violation>)
    ensures ViolationRows(a + b) == ViolationRows(a) + ViolationRows(b)
  {
    var l := ViolationRows(a + b);
    var r := ViolationRows(a) + ViolationRows(b);
    forall k | 0 <= k < |l|
      ensures l[k] == r[k]
    {
      if k < |a| {
        assert (a + b)[k] == a[k];
      } else {
        assert (a + b)[k] == b[k - |a|];
      }
    }
  }

  /** Recording on an existing workbook appends exactly the violation's row. */
  lemma RecordAppendsRow(store: Store, v: Violation)
    ensures store.Some? ==> Record(store, v) == Success(store.value + [ViolationRow(v)])
  {
  }
}

=== FILE: wrappers.dfy ===
/** Wrappers used across the model: `Option` for the
    source's `None`-or-value returns and `Result` for operations that raise. */
module Wrappers {

  datatype Option<+T> = None | Some(value: T)

  datatype Result<+R, +E> = Success(value: R) | Failure(error: E)
}
